=== FILE: README.md ===
# A verified model of the request core of a minimal Go wiki

The wiki (`wiki.go`) serves three kinds of request: `/view/<title>`,
`/edit/<title>` and `/save/<title>`. Each page is stored in the working
directory as the file `<title>.txt`. A wrapper (`makeHandler`) cuts the
title out of the path. It accepts the title only if the title matches
`^[a-zA-Z0-9]+$`, and answers 404 otherwise. That check is the only thing
that stands between user input and a file name.

This project models that core in Dafny as pure functions:

- `wrappers.dfy` (`Wrappers`): `Option` and `Result`.
- `titles.dfy` (`Titles`): the title validator. The pattern becomes a
  character-class predicate (`ValidTitle`). `MatchesPlus` reads `C+` as
  `C C*`, and the scanning method `MatchTitle` decides it. Lemmas show all
  three agree.
- `pages.dfy` (`Pages`): `Page`, the directory as a map `Store` from file name
  to bytes, `Page.save` as `Save` and `loadPage` as `LoadPage`, with
  I/O failures passed in as parameters.
- `http.dfy` (`Http`): the five kinds of response (rendered template;
  `Interrupted`, a partial page at status 200; 302 redirect; 404; 500) and `renderTemplate`, with template execution kept
  abstract.
- `handlers.dfy` (`Handlers`): `viewHandler`, `editHandler`, `saveHandler`,
  `makeHandler`, and routing by the registered path prefixes. Each takes
  the directory and returns `Outcome(response, directory)`.
- `properties.dfy` (`WikiProperties`): properties across requests:
  - redirect round trips;
  - 404 on every verb for a bad title;
  - last write wins;
  - the sample `TestPage` exchange;
  - a request sequence `Run` that only ever changes files named `<title>.txt`
    for a valid title.

The environment is a per-request parameter `Env` with three fields:

- `readError`: the read of an existing file fails with this text.
- `writeFault`: the write fails with this text. It fails either before the file
  is opened, or after the file was truncated and some bytes were written, as
  `ioutil.WriteFile` can.
- `renderError`: the template execution fails with this text, either before it wrote anything or after some output had gone out.

Go strings are byte strings. The submitted form value is therefore modelled as
bytes, so `[]byte(body)` is the identity. Paths and titles are Dafny strings.
The registered prefixes are ASCII, so slicing at byte 6 and at character 6
agree. A valid title is ASCII by definition.

Some behaviours of the code a reader might not expect, which the model keeps:

- The handlers never look at the HTTP method. `Request` therefore has no method.
- `saveHandler` takes the `body` field without checking that it exists. Any
  request to `/save/<title>`, GET included, saves. A request with no `body`
  field overwrites the page with an empty body (`MissingBodyErases`).
- A template failure answers 500 only when the template had written nothing.
  Once output has started, the 200 status is fixed. The client then
  gets the partial page followed by the error text (`Interrupted`).

## Model

| member | source | states |
|---|---|---|
| Titles.MatchTitle | wiki.go:45 | the scan accepts a title exactly when it is non-empty and all of its characters are in [a-zA-Z0-9], and exactly when the literal reading of the pattern matches |
| Titles.MatchesPlusIffValid | wiki.go:17 | reading ^[a-zA-Z0-9]+$ as one class character followed by a class-character star accepts exactly the non-empty all-alphanumeric strings |
| Titles.MatchesStarIffAll | wiki.go:17 | the starred class accepts exactly the strings whose every character is in the class, the empty string included |
| Titles.ForeignCharRejects | wiki.go:17 | one character outside [a-zA-Z0-9] anywhere makes a title invalid |
| Titles.SeparatorsRejected | wiki.go:17 | a title containing '/', '\\', '.' or a space is never valid |
| Pages.PageTitle | wiki.go:20 | the title recovered from a file name is valid, and its file name is that name |
| Pages.FileNameInjective | wiki.go:20 | two titles share a file name exactly when they are equal |
| Pages.PageTitleOfFileName | wiki.go:20 | the title can be recovered from title + ".txt" exactly when the title is valid |
| Pages.FileNameStaysLocal | wiki.go:20 | the file name of a valid title contains no '/' and its only '.' begins ".txt" |
| Pages.Save | wiki.go:19-22 | save changes no file except title + ".txt". On success that file holds the body and no error is returned. On failure the error text is returned: the file is untouched if the open failed, and otherwise it holds a prefix of the body |
| Pages.LoadPage | wiki.go:24-31 | loading succeeds exactly when title + ".txt" exists and can be read. The page it returns has the requested title and the file's bytes. An absent file is reported as no such file |
| Pages.SaveLoadRoundTrip | wiki.go:108-112 | after a successful save, loading the same title returns the saved page |
| Pages.LastWriteWins | wiki.go:19-22 | a successful save after any earlier save of the same title leaves the directory as if the second save were the only one |
| Pages.SaveKeepsOtherPages | wiki.go:19-22 | saving one page leaves loading any other title unchanged |
| Http.RenderTemplate | wiki.go:35-40 | rendering yields the whole template on the page exactly when execution succeeds. A failure before any output answers 500 with the error text. A failure after output began keeps status 200 and appends the error text to the partial page |
| Handlers.Prefix | wiki.go:33 | every registered prefix is lenPath = 6 characters long, begins with '/' and ends with '/' |
| Handlers.ViewHandler | wiki.go:53-59 | view never changes the directory. If the page cannot be loaded it redirects to "/edit/" + title. Otherwise it renders "view" on the stored page |
| Handlers.EditHandler | wiki.go:64-69 | edit never changes the directory. Unless the template fails, it renders "edit" on a page with the requested title. The body is the stored one when the page loads, and empty when it does not. The response is exactly the rendering of that page: 500 with the template's error if it fails before any output, and 200 with the error appended if it fails later |
| Handlers.SaveHandler | wiki.go:79-88 | save changes no file but title + ".txt". On success the file holds the form's body field and the answer redirects to "/view/" + title. On a write failure it answers 500 with the error text and does not redirect |
| Handlers.Handler | wiki.go:53-88 | no verb handler answers 404; only save changes the directory, and only in the title's file |
| Handlers.MakeHandler | wiki.go:42-51 | the wrapper answers 404 exactly when the path minus its first lenPath characters is not a valid title. It then leaves the directory unchanged and no handler runs. Otherwise the result is that handler's |
| Handlers.Route | wiki.go:96-98 | the verb chosen is one whose prefix starts the path, and no verb is chosen only when no prefix does |
| Handlers.Serve | wiki.go:95-99 | unregistered paths answer 404. Registered ones go through the wrapper. The directory changes only on a save with a valid title, and then only in that title's file |
| WikiProperties.RoutePathOf | wiki.go:44 | "/<verb>/" + title is routed to that verb and its extracted title is exactly the title |
| WikiProperties.InvalidTitleNotFound | wiki.go:44-48 | for each of the three verbs, an invalid title answers 404 and leaves the directory unchanged |
| WikiProperties.ViewMissingRedirects | wiki.go:54-57 | viewing a title whose file is absent answers 302 to "/edit/" + title and changes nothing |
| WikiProperties.EditMissingShowsEmptyPage | wiki.go:65-69 | editing a title whose file is absent renders "edit" on an empty page with that title, and changes nothing |
| WikiProperties.FollowViewRedirect | wiki.go:56 | following the redirect from viewing a missing page opens its empty editor |
| WikiProperties.SaveThenView | wiki.go:79-88 | a successful save redirects to "/view/" + title. Following that redirect renders the page with exactly the submitted body |
| WikiProperties.MissingBodyErases | wiki.go:80-82 | a save request with no "body" field redirects to the view and leaves the page's file empty |
| WikiProperties.SaveTwiceLastWins | wiki.go:79-88 | a successful save request after any earlier save request for the same title gives the same response and directory as the second alone |
| WikiProperties.ServeChangesOnlyPageFiles | wiki.go:42-51 | a single request changes no file except one named title + ".txt" for a valid title |
| WikiProperties.Run | wiki.go:95-99 | a sequence of requests yields one response per request. A response is 404 exactly when its path is unregistered or its title is invalid. A sequence with no save of a valid title leaves the directory unchanged |
| WikiProperties.RunSnoc | wiki.go:95-99 | serving one more request after a sequence answers it by serving it on the directory the sequence left. That request's directory becomes the final one, so each request sees its predecessors' saves |
| WikiProperties.RunChangesOnlyPageFiles | wiki.go:44-49 | any sequence of requests changes no file except those named title + ".txt" for a valid title |
| WikiProperties.AsciiBytes | wiki.go:109 | the []byte conversion of an ASCII literal has one byte per character, with the character's code |
| WikiProperties.SampleTitleValid | wiki.go:109 | "TestPage" passes the validator |
| WikiProperties.SamplePageScenario | wiki.go:108-112 | saving any body to /save/TestPage redirects to /view/TestPage, which then renders that body |
| WikiProperties.SampleTextScenario | wiki.go:108-112 | saving "This is a sample Page." to TestPage and viewing it renders exactly those bytes |

## Left out

- The HTTP server, `ListenAndServe` and the port. Routing by registered prefix is modelled by `Route`.
- The default mux's path cleaning is not modelled. This includes its 301 redirects for paths with `..`, `//` or `/./`, and for a bare `/view` without the trailing slash.
- Handler panics are not modelled. `MakeHandler` instead requires a path at least `lenPath` long. The mux only calls the wrapper with such paths.
- Template parsing and the markup of `view.html` and `edit.html` are left out. Rendering is the abstract response `Rendered(template, page)`, a 500 carrying the execution error, or `Interrupted(template, page, error)`. The exact bytes written before an interrupted execution are left out.
- Response bodies other than the error text are left out: the text of 404 and the redirect's HTML. The newline `http.Error` appends is also left out.
- The directory is taken to be case-sensitive, so distinct file names are distinct files. On a case-insensitive file system (the macOS default, Windows) `Foo.txt` and `foo.txt` are one file. There, saving `foo` overwrites `Foo`, which `Pages.SaveKeepsOtherPages` and `Pages.Save`'s one-file frame do not cover.
- The file permission bits 0600, atomicity and concurrent saves racing on one file are left out. Each request is served to completion before the next starts.
- Form parsing (URL-encoding, multipart, query versus body precedence) is left out. `Request.form` is the already-merged field map.
- The unused entry points `main_helloworld` and `main_page` are not modelled. `main_page` survives only as the sample scenario lemmas. The commented-out `fmt.Fprintf` rendering is not modelled either.
- Handlers.Prefix: the prefixes' full text is given by its body, and its contract states only the shared length and the slashes.

=== FILE: handlers.dfy ===
/** Request handling of wiki.go: the three verb handlers, the makeHandler
    wrapper that extracts and validates the title, and routing by path prefix
    as registered with the default mux in main. */
module Handlers {
  import opened Wrappers
  import opened Titles
  import opened Http
  import Pages

  /** The three registered handlers. */
  datatype Verb = View | Edit | Save

  /** lenPath: the length of "/view/", shared by "/edit/" and "/save/". */
  const LenPath: nat := |"/view/"|

  /** The path prefix each handler is registered under. */
  function Prefix(v: Verb): (p: string)
    ensures |p| == LenPath && p[0] == '/' && p[LenPath - 1] == '/'
  {
    match v
    case View => "/view/"
    case Edit => "/edit/"
    case Save => "/save/"
  }

  /** The part of a request the handlers look at: the URL path and the
      submitted form fields (as byte strings). */
  datatype Request = Request(path: string, form: map<string, seq<Pages.byte>>)

  /** What the environment does during one request: whether reading the page
      file fails, whether writing it fails and how, and whether executing the
      template fails and whether it had written anything by then. */
  datatype Env = Env(readError: Option<string>, writeFault: Option<Pages.WriteFault>, renderError: Option<RenderFault>)

  /** The response written and the directory afterwards. */
  datatype Outcome = Outcome(response: Response, store: Pages.Store)

  /** r.FormValue: the named field, or the empty string when absent. */
  function FormValue(form: map<string, seq<Pages.byte>>, key: string): seq<Pages.byte>
  {
    if key in form then form[key] else []
  }

  /** loadPage would succeed for this title. */
  predicate Readable(store: Pages.Store, title: string, env: Env) {
    Pages.FileName(title) in store && env.readError.None?
  }

  /** viewHandler: show the page, or send the browser to its editor when it
      cannot be loaded. */
  function ViewHandler(store: Pages.Store, title: string, env: Env): (o: Outcome)
    ensures o.store == store
    ensures !Readable(store, title, env) ==> o.response == Found(Prefix(Edit) + title)
    ensures Readable(store, title, env) ==>
      o.response == RenderTemplate(ViewTemplate, Pages.Page(title, store[Pages.FileName(title)]), env.renderError)
  {
    match Pages.LoadPage(store, title, env.readError)
    case Err(_) => Outcome(Found("/edit/" + title), store)
    case Ok(p) => Outcome(RenderTemplate(ViewTemplate, p, env.renderError), store)
  }

  /** editHandler: show the editor on the stored page, or on an empty page with
      this title when it cannot be loaded. */
  function EditHandler(store: Pages.Store, title: string, env: Env): (o: Outcome)
    ensures o.store == store
    ensures env.renderError.None? ==> o.response.Rendered?
    ensures o.response.ShowsPage() ==> o.response.template == EditTemplate && o.response.page.title == title
    ensures o.response.ShowsPage() && !Readable(store, title, env) ==> o.response.page.body == []
    ensures o.response.ShowsPage() && Readable(store, title, env) ==>
      o.response.page.body == store[Pages.FileName(title)]
    ensures !o.response.ShowsPage() ==> o.response == ServerError(env.renderError.value.message)
    ensures o.response == RenderTemplate(EditTemplate,
      Pages.Page(title, if Readable(store, title, env) then store[Pages.FileName(title)] else []), env.renderError)
  {
    var p := match Pages.LoadPage(store, title, env.readError)
      case Err(_) => Pages.Page(title, [])
      case Ok(p) => p;
    Outcome(RenderTemplate(EditTemplate, p, env.renderError), store)
  }

  /** saveHandler: store the form's "body" field under the title, then send the
      browser to the page, or answer 500 with the write error. */
  function SaveHandler(store: Pages.Store, title: string, req: Request, env: Env): (o: Outcome)
    ensures Pages.AgreeExcept(store, o.store, Pages.FileName(title))
    ensures env.writeFault.None? ==>
      && o.response == Found(Prefix(View) + title)
      && Pages.FileName(title) in o.store
      && o.store[Pages.FileName(title)] == FormValue(req.form, "body")
    ensures env.writeFault.Some? ==> o.response == ServerError(env.writeFault.value.message)
  {
    var p := Pages.Page(title, FormValue(req.form, "body"));
    var w := Pages.Save(store, p, env.writeFault);
    match w.error
    case Some(e) => Outcome(ServerError(e), w.store)
    case None => Outcome(Found("/view/" + title), w.store)
  }

  /** The handler registered for a verb, on a validated title. */
  function Handler(v: Verb, store: Pages.Store, title: string, req: Request, env: Env): (o: Outcome)
    ensures !o.response.NotFound?
    ensures v != Save ==> o.store == store
    ensures Pages.AgreeExcept(store, o.store, Pages.FileName(title))
  {
    match v
    case View => ViewHandler(store, title, env)
    case Edit => EditHandler(store, title, env)
    case Save => SaveHandler(store, title, req, env)
  }

  /** The title makeHandler extracts: the path without its first lenPath characters. */
  function TitleOf(path: string): string
    requires |path| >= LenPath
  {
    path[LenPath..]
  }

  /** makeHandler: validate the extracted title before the verb handler runs;
      a rejected title is a 404 and touches nothing. The slice expression of
      the source needs a path at least lenPath long, which the mux guarantees. */
  function MakeHandler(v: Verb, store: Pages.Store, req: Request, env: Env): (o: Outcome)
    requires |req.path| >= LenPath
    ensures o.response.NotFound? <==> !ValidTitle(TitleOf(req.path))
    ensures !ValidTitle(TitleOf(req.path)) ==> o.store == store
    ensures ValidTitle(TitleOf(req.path)) ==> o == Handler(v, store, TitleOf(req.path), req, env)
    ensures Pages.AgreeExcept(store, o.store, Pages.FileName(TitleOf(req.path)))
  {
    var title := req.path[LenPath..];
    if !ValidTitle(title) then Outcome(NotFound, store)
    else Handler(v, store, title, req, env)
  }

  /** The verb whose registered prefix starts the path, if any. */
  function Route(path: string): (r: Option<Verb>)
    ensures r.Some? ==> Prefix(r.value) <= path
    ensures r.None? ==> forall v: Verb :: !(Prefix(v) <= path)
  {
    if Prefix(View) <= path then Some(View)
    else if Prefix(Edit) <= path then Some(Edit)
    else if Prefix(Save) <= path then Some(Save)
    else None
  }

  /** One request through the mux: unregistered paths are 404, the others go
      through makeHandler. Only a save of a valid title changes the directory,
      and only in that title's file. */
  function Serve(store: Pages.Store, req: Request, env: Env): (o: Outcome)
    ensures Route(req.path).None? ==> o == Outcome(NotFound, store)
    ensures Route(req.path).Some? ==> o == MakeHandler(Route(req.path).value, store, req, env)
    ensures o.store == store || (
      && Route(req.path) == Some(Save)
      && ValidTitle(TitleOf(req.path))
      && Pages.AgreeExcept(store, o.store, Pages.FileName(TitleOf(req.path))))
  {
    match Route(req.path)
    case None => Outcome(NotFound, store)
    case Some(v) => MakeHandler(v, store, req, env)
  }
}

=== FILE: http.dfy ===
/** The HTTP responses the wiki produces, with rendering through the
    "view" and "edit" templates kept abstract. */
module Http {
  import opened Wrappers
  import opened Pages

  /** The two templates parsed at start-up. */
  datatype Template = ViewTemplate | EditTemplate

  const StatusOK := 200
  const StatusFound := 302
  const StatusNotFound := 404
  const StatusInternalServerError := 500

  /** What a handler writes back. */
  datatype Response =
    | Rendered(template: Template, page: Page)  // the template executed on the page
    | Interrupted(template: Template, page: Page, message: string)
        // part of the template's output, then the error text: the status was fixed at 200 by the first write
    | Found(location: string)                    // http.Redirect with StatusFound
    | NotFound                                   // http.NotFound
    | ServerError(message: string)               // http.Error with StatusInternalServerError
  {
    /** The response carries (all or part of) a template executed on a page. */
    predicate ShowsPage() {
      Rendered? || Interrupted?
    }
  }

  function StatusCode(r: Response): int {
    match r
    case Rendered(_, _) => StatusOK
    case Interrupted(_, _, _) => StatusOK
    case Found(_) => StatusFound
    case NotFound => StatusNotFound
    case ServerError(_) => StatusInternalServerError
  }

  /** How template execution fails: with the error text, and either before
      any output reached the client or after some had. */
  datatype RenderFault = RenderFault(message: string, afterOutput: bool)

  /** renderTemplate: executes the template on the page. An execution error
      becomes a 500 carrying its text only when nothing was written yet;
      after the first write the status is fixed at 200 and the 500 is lost. */
  function RenderTemplate(tmpl: Template, p: Page, fault: Option<RenderFault>): (r: Response)
    ensures StatusCode(r) == StatusOK <==> fault.None? || fault.value.afterOutput
    ensures StatusCode(r) != StatusOK ==> StatusCode(r) == StatusInternalServerError
    ensures r.Rendered? <==> fault.None?
    ensures r.ShowsPage() ==> r.template == tmpl && r.page == p
    ensures r.ServerError? || r.Interrupted? ==> fault == Some(RenderFault(r.message, r.Interrupted?))
  {
    match fault
    case None => Rendered(tmpl, p)
    case Some(RenderFault(e, true)) => Interrupted(tmpl, p, e)
    case Some(RenderFault(e, false)) => ServerError(e)
  }
}

=== FILE: pages.dfy ===
/** The page store of wiki.go: a Page is persisted as the file <title>.txt.
    The working directory is modelled as a map from file name to contents. */
module Pages {
  import opened Wrappers
  import opened Titles

  newtype byte = x: int | 0 <= x < 256

  /** The files of the working directory, by name. */
  type Store = map<string, seq<byte>>

  /** One wiki article. */
  datatype Page = Page(title: string, body: seq<byte>)

  const Extension: string := ".txt"

  /** The on-disk name of a page. */
  function FileName(title: string): string {
    title + Extension
  }

  /** Recovers the title from a file name the wiki can create. */
  function PageTitle(name: string): (r: Option<string>)
    ensures r.Some? ==> ValidTitle(r.value) && FileName(r.value) == name
  {
    var n := |name| - |Extension|;
    if n >= 0 && name[n..] == Extension && ValidTitle(name[..n]) then Some(name[..n]) else None
  }

  /** Distinct titles never share a file name. */
  lemma FileNameInjective(t1: string, t2: string)
    ensures FileName(t1) == FileName(t2) <==> t1 == t2
  {
    if FileName(t1) == FileName(t2) {
      assert |t1| == |t2|;
      assert t1 == FileName(t1)[..|t1|];
      assert t2 == FileName(t2)[..|t2|];
    }
  }

  /** PageTitle inverts FileName exactly on valid titles. */
  lemma PageTitleOfFileName(t: string)
    ensures PageTitle(FileName(t)) == (if ValidTitle(t) then Some(t) else None)
  {
  }

  /** The file name of a valid title lies in the working directory: it has no
      separator and its only dot starts the extension. */
  lemma FileNameStaysLocal(t: string)
    requires ValidTitle(t)
    ensures '/' !in FileName(t)
    ensures forall i :: 0 <= i < |FileName(t)| && FileName(t)[i] == '.' ==> i == |t|
  {
  }

  /** Stores a and b agree on every file except possibly `name`. */
  ghost predicate AgreeExcept(a: Store, b: Store, name: string) {
    forall k :: k != name ==> (k in a <==> k in b) && (k in a ==> a[k] == b[k])
  }

  function Min(a: nat, b: nat): nat {
    if a <= b then a else b
  }

  /** How a write of ioutil.WriteFile fails: with the error text, and either
      before the file was opened (None) or after it was truncated and the given
      number of bytes was written. */
  datatype WriteFault = WriteFault(message: string, written: Option<nat>)

  /** The directory after a save, and the error it returned. */
  datatype Written = Written(store: Store, error: Option<string>)

  /** Page.save: writes the body to <title>.txt. */
  function Save(store: Store, p: Page, fault: Option<WriteFault>): (r: Written)
    ensures AgreeExcept(store, r.store, FileName(p.title))
    ensures r.error.None? <==> fault.None?
    ensures fault.None? ==> FileName(p.title) in r.store && r.store[FileName(p.title)] == p.body
    ensures fault.Some? ==> r.error == Some(fault.value.message)
    ensures fault.Some? && fault.value.written.None? ==> r.store == store
    ensures fault.Some? && fault.value.written.Some? ==>
      FileName(p.title) in r.store && r.store[FileName(p.title)] <= p.body
  {
    var name := FileName(p.title);
    match fault
    case None => Written(store[name := p.body], None)
    case Some(WriteFault(message, None)) => Written(store, Some(message))
    case Some(WriteFault(message, Some(n))) =>
      Written(store[name := p.body[..Min(n, |p.body|)]], Some(message))
  }

  /** Why loadPage failed: the file is absent, or reading it failed. */
  datatype LoadError = NoSuchFile(name: string) | ReadFailed(message: string)

  /** loadPage: reads <title>.txt; `readError` is the failure the file system
      reports for a file that exists but cannot be read. */
  function LoadPage(store: Store, title: string, readError: Option<string>): (r: Result<Page, LoadError>)
    ensures r.Ok? <==> FileName(title) in store && readError.None?
    ensures r.Ok? ==> r.value.title == title && r.value.body == store[FileName(title)]
    ensures r.Err? && FileName(title) !in store ==> r.error == NoSuchFile(FileName(title))
  {
    var name := FileName(title);
    if name !in store then Err(NoSuchFile(name))
    else if readError.Some? then Err(ReadFailed(readError.value))
    else Ok(Page(title, store[name]))
  }

  /** A successful save is read back unchanged. */
  lemma SaveLoadRoundTrip(store: Store, p: Page)
    ensures LoadPage(Save(store, p, None).store, p.title, None) == Ok(p)
  {
  }

  /** The second of two saves to one title decides the file, whatever became
      of the first. */
  lemma LastWriteWins(store: Store, t: string, b1: seq<byte>, b2: seq<byte>, fault: Option<WriteFault>)
    ensures Save(Save(store, Page(t, b1), fault).store, Page(t, b2), None).store
         == Save(store, Page(t, b2), None).store
  {
  }

  /** Saving one page leaves every page with another file name as it was. */
  lemma SaveKeepsOtherPages(store: Store, p: Page, fault: Option<WriteFault>, t: string, readError: Option<string>)
    requires t != p.title
    ensures LoadPage(Save(store, p, fault).store, t, readError) == LoadPage(store, t, readError)
  {
    FileNameInjective(t, p.title);
  }
}

=== FILE: properties.dfy ===
/** Properties of the wiki across requests: what the mux does with a verb
    prefix and a title, save/view round trips through the redirect, and a
    whole sequence of requests, which only ever writes page files. */
module WikiProperties {
  import opened Wrappers
  import opened Titles
  import opened Pages
  import opened Http
  import opened Handlers

  /** The path a browser requests for a verb and a title. */
  function PathOf(v: Verb, title: string): string {
    Prefix(v) + title
  }

  /** The mux sends "/<verb>/<title>" to that verb's handler, and makeHandler
      recovers exactly the title. */
  lemma RoutePathOf(v: Verb, t: string)
    ensures Route(PathOf(v, t)) == Some(v)
    ensures |PathOf(v, t)| >= LenPath && TitleOf(PathOf(v, t)) == t
  {
    var p := PathOf(v, t);
    assert p[..LenPath] == Prefix(v);
    assert p[LenPath..] == t;
    assert Prefix(View)[1] == 'v' && Prefix(Edit)[1] == 'e' && Prefix(Save)[1] == 's';
  }

  /** A title outside ^[a-zA-Z0-9]+$ is a 404 on all three verbs, and no
      handler runs, so the directory is untouched. */
  lemma InvalidTitleNotFound(store: Store, v: Verb, t: string, form: map<string, seq<byte>>, env: Env)
    requires !ValidTitle(t)
    ensures Serve(store, Request(PathOf(v, t), form), env) == Outcome(NotFound, store)
  {
  }

  /** Viewing a page that has no file redirects (302) to its editor and
      changes nothing. */
  lemma ViewMissingRedirects(store: Store, t: string, form: map<string, seq<byte>>, env: Env)
    requires ValidTitle(t) && FileName(t) !in store
    ensures Serve(store, Request(PathOf(View, t), form), env) == Outcome(Found(PathOf(Edit, t)), store)
  {
  }

  /** Editing a page that has no file is not an error: the editor opens on an
      empty page with that title. */
  lemma EditMissingShowsEmptyPage(store: Store, t: string, form: map<string, seq<byte>>, env: Env)
    requires ValidTitle(t) && FileName(t) !in store && env.renderError.None?
    ensures Serve(store, Request(PathOf(Edit, t), form), env) == Outcome(Rendered(EditTemplate, Page(t, [])), store)
  {
    RoutePathOf(Edit, t);
  }

  /** Following the redirect of a missing page lands on its empty editor. */
  lemma FollowViewRedirect(store: Store, t: string, form: map<string, seq<byte>>, env1: Env, env2: Env)
    requires ValidTitle(t) && FileName(t) !in store && env2.renderError.None?
    ensures var o := Serve(store, Request(PathOf(View, t), form), env1);
      && o.response.Found?
      && Serve(o.store, Request(o.response.location, form), env2) == Outcome(Rendered(EditTemplate, Page(t, [])), store)
  {
    ViewMissingRedirects(store, t, form, env1);
    EditMissingShowsEmptyPage(store, t, form, env2);
  }

  /** A successful save redirects to the page, and following that redirect
      shows the page with exactly the submitted body. */
  lemma SaveThenView(store: Store, t: string, form: map<string, seq<byte>>, form2: map<string, seq<byte>>, env1: Env, env2: Env)
    requires ValidTitle(t)
    requires env1.writeFault.None? && env2.readError.None? && env2.renderError.None?
    ensures var o := Serve(store, Request(PathOf(Save, t), form), env1);
      && o.response == Found(PathOf(View, t))
      && Serve(o.store, Request(o.response.location, form2), env2)
         == Outcome(Rendered(ViewTemplate, Page(t, FormValue(form, "body"))), o.store)
  {
    RoutePathOf(Save, t);
    RoutePathOf(View, t);
  }

  /** A save request without a "body" field is still a save: the page's file
      is overwritten with the empty body. */
  lemma MissingBodyErases(store: Store, t: string, form: map<string, seq<byte>>, env: Env)
    requires ValidTitle(t) && "body" !in form && env.writeFault.None?
    ensures var o := Serve(store, Request(PathOf(Save, t), form), env);
      && o.response == Found(PathOf(View, t))
      && FileName(t) in o.store && o.store[FileName(t)] == []
  {
    RoutePathOf(Save, t);
  }

  /** Two saves of one title: the directory ends as if only the second had
      happened, whatever became of the first. */
  lemma SaveTwiceLastWins(store: Store, t: string, form1: map<string, seq<byte>>, form2: map<string, seq<byte>>, env1: Env, env2: Env)
    requires ValidTitle(t) && env2.writeFault.None?
    ensures var o1 := Serve(store, Request(PathOf(Save, t), form1), env1);
      Serve(o1.store, Request(PathOf(Save, t), form2), env2) == Serve(store, Request(PathOf(Save, t), form2), env2)
  {
  }

  /** Stores a and b differ at most in files the wiki can name: every other
      file is untouched. */
  ghost predicate ChangesOnlyPageFiles(a: Store, b: Store) {
    forall k :: PageTitle(k).None? ==> (k in a <==> k in b) && (k in a ==> a[k] == b[k])
  }

  /** One request writes nothing but the file of a valid title. */
  lemma ServeChangesOnlyPageFiles(store: Store, req: Request, env: Env)
    ensures ChangesOnlyPageFiles(store, Serve(store, req, env).store)
  {
  }

  /** One request and the environment it met. */
  datatype Exchange = Exchange(request: Request, env: Env)

  /** The responses to a sequence of requests and the final directory. */
  datatype Transcript = Transcript(responses: seq<Response>, store: Store)

  /** The path is a save of a valid title: the only kind of request that can
      write a file. */
  predicate WritesPage(path: string) {
    Route(path) == Some(Save) && ValidTitle(TitleOf(path))
  }

  /** Requests served one after another, each seeing the directory the
      previous one left. */
  function Run(store: Store, trace: seq<Exchange>): (t: Transcript)
    ensures |t.responses| == |trace|
    ensures forall i :: 0 <= i < |trace| ==>
      (t.responses[i].NotFound? <==> Route(trace[i].request.path).None? || !ValidTitle(TitleOf(trace[i].request.path)))
    ensures (forall i :: 0 <= i < |trace| ==> !WritesPage(trace[i].request.path)) ==> t.store == store
    decreases |trace|
  {
    if |trace| == 0 then Transcript([], store)
    else
      var o := Serve(store, trace[0].request, trace[0].env);
      var rest := Run(o.store, trace[1..]);
      Transcript([o.response] + rest.responses, rest.store)
  }

  /** One step of Run on a non-empty sequence. */
  lemma RunCons(store: Store, trace: seq<Exchange>)
    requires |trace| > 0
    ensures var o := Serve(store, trace[0].request, trace[0].env);
      var rest := Run(o.store, trace[1..]);
      Run(store, trace) == Transcript([o.response] + rest.responses, rest.store)
  {
  }

  /** Run is the left fold of Serve: one more request is answered by Serve on
      the directory the earlier requests left, and its directory is the new
      final one. */
  lemma {:induction false} RunSnoc(store: Store, trace: seq<Exchange>, e: Exchange)
    ensures var p := Run(store, trace);
      var o := Serve(p.store, e.request, e.env);
      Run(store, trace + [e]) == Transcript(p.responses + [o.response], o.store)
    decreases |trace|
  {
    if |trace| > 0 {
      var o := Serve(store, trace[0].request, trace[0].env);
      var rest := Run(o.store, trace[1..]);
      var last := Serve(rest.store, e.request, e.env);
      assert (trace + [e])[0] == trace[0];
      assert (trace + [e])[1..] == trace[1..] + [e];
      RunCons(store, trace + [e]);
      RunCons(store, trace);
      RunSnoc(o.store, trace[1..], e);
      assert [o.response] + (rest.responses + [last.response]) == ([o.response] + rest.responses) + [last.response];
    } else {
      assert trace + [e] == [e];
    }
  }

  /** However many requests arrive, the wiki writes only files named
      <title>.txt for a valid title: validation guards every file name. */
  lemma {:induction false} RunChangesOnlyPageFiles(store: Store, trace: seq<Exchange>)
    ensures ChangesOnlyPageFiles(store, Run(store, trace).store)
    decreases |trace|
  {
    if |trace| > 0 {
      var o := Serve(store, trace[0].request, trace[0].env);
      ServeChangesOnlyPageFiles(store, trace[0].request, trace[0].env);
      RunChangesOnlyPageFiles(o.store, trace[1..]);
    }
  }

  /** []byte of an ASCII string literal: one byte per character. */
  function AsciiBytes(s: string): (b: seq<byte>)
    requires forall i :: 0 <= i < |s| ==> s[i] as int < 128
    ensures |b| == |s|
    ensures forall i :: 0 <= i < |s| ==> b[i] as int == s[i] as int
    decreases |s|
  {
    if |s| == 0 then [] else [s[0] as int as byte] + AsciiBytes(s[1..])
  }

  const SampleTitle: string := "TestPage"
  const SampleText: string := "This is a sample Page."

  /** The sample title passes the validator. */
  lemma SampleTitleValid()
    ensures ValidTitle(SampleTitle)
  {
  }

  /** The sample text is ASCII, so AsciiBytes gives its []byte conversion. */
  lemma SampleTextAscii()
    ensures forall i :: 0 <= i < |SampleText| ==> SampleText[i] as int < 128
  {
  }

  /** The sample requests' paths are PathOf the sample title. */
  lemma SamplePaths()
    ensures PathOf(Save, SampleTitle) == "/save/TestPage"
    ensures PathOf(View, SampleTitle) == "/view/TestPage"
  {
  }

  /** The sample exchange, for any submitted body: saving TestPage redirects
      to /view/TestPage, which then shows that body. */
  lemma SamplePageScenario(store: Store, body: seq<byte>)
    ensures var ok := Env(None, None, None);
      var o1 := Serve(store, Request("/save/TestPage", map["body" := body]), ok);
      && o1.response == Found("/view/TestPage")
      && Serve(o1.store, Request("/view/TestPage", map[]), ok).response
         == Rendered(ViewTemplate, Page(SampleTitle, body))
  {
    var ok := Env(None, None, None);
    SampleTitleValid();
    SamplePaths();
    SaveThenView(store, SampleTitle, map["body" := body], map[], ok, ok);
  }

  /** The sample exchange with the sample text as the submitted body. */
  lemma SampleTextScenario(store: Store)
    ensures forall i :: 0 <= i < |SampleText| ==> SampleText[i] as int < 128
    ensures var ok := Env(None, None, None);
      var o1 := Serve(store, Request("/save/TestPage", map["body" := AsciiBytes(SampleText)]), ok);
      Serve(o1.store, Request("/view/TestPage", map[]), ok).response
        == Rendered(ViewTemplate, Page(SampleTitle, AsciiBytes(SampleText)))
  {
    SampleTextAscii();
    SamplePageScenario(store, AsciiBytes(SampleText));
  }
}

=== FILE: titles.dfy ===
/** The title validator of wiki.go: the pattern ^[a-zA-Z0-9]+$, specialised
    from a general regular expression to a character-class predicate. */
module Titles {

  /** Membership in the character class [a-zA-Z0-9]. */
  predicate IsTitleChar(c: char) {
    || ('a' <= c <= 'z')
    || ('A' <= c <= 'Z')
    || ('0' <= c <= '9')
  }

  /** The meaning of the anchored pattern: a non-empty string whose every
      character lies in the class. */
  predicate ValidTitle(t: string) {
    |t| > 0 && forall i :: 0 <= i < |t| ==> IsTitleChar(t[i])
  }

  /** The pattern's structure read literally: C+ is one C followed by C*. */
  predicate MatchesPlus(t: string) {
    |t| > 0 && IsTitleChar(t[0]) && MatchesStar(t[1..])
  }

  /** C* matches the empty string, or one C followed by C*. */
  predicate MatchesStar(t: string)
    decreases |t|
  {
    |t| == 0 || (IsTitleChar(t[0]) && MatchesStar(t[1..]))
  }

  /** C* accepts exactly the strings made of class characters. */
  lemma {:induction false} MatchesStarIffAll(t: string)
    ensures MatchesStar(t) <==> forall i :: 0 <= i < |t| ==> IsTitleChar(t[i])
    decreases |t|
  {
    if |t| > 0 {
      MatchesStarIffAll(t[1..]);
      assert forall i :: 1 <= i < |t| ==> t[i] == t[1..][i - 1];
    }
  }

  /** The structural reading of ^[a-zA-Z0-9]+$ agrees with ValidTitle. */
  lemma MatchesPlusIffValid(t: string)
    ensures MatchesPlus(t) <==> ValidTitle(t)
  {
    if |t| > 0 {
      MatchesStarIffAll(t[1..]);
      assert forall i :: 1 <= i < |t| ==> t[i] == t[1..][i - 1];
    }
  }

  /** A left-to-right scan deciding the pattern, as MatchString does. */
  method MatchTitle(t: string) returns (ok: bool)
    ensures ok <==> ValidTitle(t)
    ensures ok <==> MatchesPlus(t)
  {
    MatchesPlusIffValid(t);
    if |t| == 0 {
      return false;
    }
    var i := 0;
    while i < |t|
      invariant 0 <= i <= |t|
      invariant forall j :: 0 <= j < i ==> IsTitleChar(t[j])
    {
      if !IsTitleChar(t[i]) {
        return false;
      }
      i := i + 1;
    }
    return true;
  }

  /** One character outside the class anywhere in the title rejects it. */
  lemma ForeignCharRejects(t: string, i: int)
    requires 0 <= i < |t| && !IsTitleChar(t[i])
    ensures !ValidTitle(t)
  {
  }

  /** Path separators, dots and spaces are never part of a valid title, so a
      valid title can name neither a directory nor a parent directory. */
  lemma SeparatorsRejected(t: string)
    requires '/' in t || '\\' in t || '.' in t || ' ' in t
    ensures !ValidTitle(t)
  {
  }
}

=== FILE: wrappers.dfy ===
/** Failure-carrying datatypes shared by the wiki model. */
module Wrappers {

  /** A value that may be absent. */
  datatype Option<+T> = None | Some(value: T)

  /** The outcome of an operation that either yields a value or an error. */
  datatype Result<+T, +E> = Ok(value: T) | Err(error: E)
}
